=== FILE: README.md ===
# jaundice-rate, modelled in Dafny

jaundice-rate scores news articles for "jaundice", meaning sensationalist
wording. For every URL of a batch it:

- looks up the HTML sanitizer registered for the URL's host;
- fetches the page;
- turns the article body into a list of normalised words;
- reports the percentage of those words that occur in a list of charged words.

Each URL ends as one record: `OK` with a rate and a word count, or `FETCH_ERROR`, `PARSING_ERROR` or `TIMEOUT`. The failure handler turns
the three recognised failure kinds into records. Any other failure escapes and
ends the whole batch.

The project models that core as pure functions:

- `outcomes.dfy`: the result type `Outcome` (a value, or a raised failure of one of the kinds the code distinguishes) and `Collect`, which gathers independent outcomes.
- `text_tools.dfy`: `_clean_word` (quote and ellipsis deletion, then `strip(string.punctuation)`), Python's argument-less `str.split()`, the length filter of `split_by_words` with its time budget, and `calculate_jaundice_rate`, including Python's round-half-even `round(x, 2)`.
- `articles.dfy`: `ProcessingStatus`, the `Article` record and `to_dict`.
- `exceptions.dfy`: `handle_exceptions`.
- `urls.dfy`: the `netloc` that `urllib.parse.urlparse` finds, which is what `get_adapter_for` looks up.
- `process_articles.dfy`:
  - the adapter registry and `get_adapter_for`;
  - `process_article`, a chain of stages inside the handler;
  - `process_articles_from`, both in start order and in any completion order of its concurrent tasks;
  - the scenarios of the repository's tests.
- `batches.dfy`: tasks run one after another against one shared list (the loop of `process_articles_from`), and the proof that such a run equals collecting each task's outcome on its own.
- `seqs.dfy`: completion orders (schedules) and the fact that reordering along one is a permutation.

Everything the pipeline gets from outside is a parameter:

- `Env.sanitize`: what a sanitizer does to a document (it may raise).
- `Env.normalize`: the morphological normaliser (pymorphy2's `normal_form`).
- `Env.chargedWords`: the charged words.
- `Observation`, one per task: the outcome of the HTTP fetch (a document, an HTTP error status, the fetch timeout, or any other failure), and the raw token during which the tokenizer's three-second budget runs out, if it does (`TextTools.TimesOut` says when that cancels the loop).

Three facts of the code shape the model:

- `process_article` looks up the adapter *before* fetching. A URL on an unsupported site is therefore `PARSING_ERROR` whatever the network does (`ProcessArticles.UnsupportedHostIsParsingError`).
- Only `aiohttp.ClientResponseError` becomes `FETCH_ERROR`: an HTTP error status (400 or above), or a subclass of it such as too many redirects. A connection failure is some other exception: it escapes the handler and fails the batch (`Unrecognised`).
- `Article` has no elapsed-time field. The record has `url`, `status`, `rate` and `word_count` only.

## Model

| member | source | states |
|---|---|---|
| Outcomes.Collect | jaundice_rate/process_articles.py:197-209 | the gathered outcome is a value exactly when every task completed; it then holds every task's value in place; otherwise it is the failure one of the tasks raised |
| Articles.StatusFromValue | jaundice_rate/process_articles.py:19-25 | looking a status up by its string value finds a member with that value, or finds none because no member has it |
| Articles.StatusesAreFour | jaundice_rate/process_articles.py:19-25 | there are exactly four statuses, their values are pairwise distinct, and every status is found again from its value |
| Articles.ToDict | jaundice_rate/process_articles.py:36-47 | `to_dict` has exactly the keys url, status, rate and word_count |
| Articles.FromDictToDict | jaundice_rate/process_articles.py:28-47 | `to_dict` loses nothing: the record is read back from its dictionary |
| Articles.ToDictFromDict | jaundice_rate/process_articles.py:36-47 | every dictionary that reads back as a record is exactly that record's `to_dict` |
| Exceptions.Classify | jaundice_rate/exceptions.py:20-31 | a failure kind is caught exactly when it is one of the three recognised kinds, and it is never recorded as OK |
| Exceptions.ClassifyIsOneToOne | jaundice_rate/exceptions.py:20-31 | HTTP error ↦ FETCH_ERROR, timeout ↦ TIMEOUT, article not found ↦ PARSING_ERROR, and no two kinds share a status |
| Exceptions.HandleExceptions | jaundice_rate/exceptions.py:10-31 | a body that completed leaves the list as it is; a caught failure appends exactly one record for the URL, with its status, no rate and no word count, and changes nothing before it; an uncaught failure escapes unchanged |
| Exceptions.HandlerTable | jaundice_rate/exceptions.py:20-31 | the record each `except` clause appends, clause by clause |
| Urls.Netloc | jaundice_rate/process_articles.py:92-93 | the host never contains '/', '?' or '#' |
| Urls.AfterSchemeOf | jaundice_rate/process_articles.py:92 | a well-formed scheme and its colon are exactly what is cut off before the host is looked for |
| Urls.HostBeforeTail | jaundice_rate/process_articles.py:93 | the host runs up to the first '/', '?' or '#' |
| Urls.NetlocOfUrl | jaundice_rate/process_articles.py:92-93 | for every URL `scheme://host` followed by a path, query or fragment, the host found is `host` |
| ProcessArticles.GetAdapterFor | jaundice_rate/process_articles.py:80-97 | an adapter is found exactly when the URL's host is a registry key, and it is the one registered; otherwise the article-not-found failure is raised |
| ProcessArticles.OnlyInosmiIsSupported | jaundice_rate/adapters/__init__.py:6-8 | a URL has an adapter exactly when its host is "inosmi.ru" |
| ProcessArticles.ArticleBody | jaundice_rate/process_articles.py:154-174 | when every stage succeeds, the record is OK, carries the URL, keeps the record invariant and has a rate in [0, 100] |
| ProcessArticles.ProcessArticle | jaundice_rate/process_articles.py:135-174 | either exactly one record for the URL is appended, keeping the record invariant, and nothing already in the list changes, or an unrecognised failure escapes; a failure escapes exactly when the body raises one of an unrecognised kind, and it is the body's own; otherwise the record is the body's OK record, or carries the status the handler gives the body's failure, with no rate or word count |
| ProcessArticles.UnsupportedHostIsParsingError | jaundice_rate/process_articles.py:153-154 | a URL whose host has no adapter gets a PARSING_ERROR record, whatever the fetch or the tokenizer would have done |
| ProcessArticles.FetchFailureIsClassified | jaundice_rate/process_articles.py:155 | an HTTP error status gives FETCH_ERROR, the fetch timeout gives TIMEOUT, and any other fetch failure escapes |
| ProcessArticles.ArticleNotFoundIsParsingError | jaundice_rate/process_articles.py:157-161 | a sanitizer that finds no article body gives PARSING_ERROR |
| ProcessArticles.TokenizeTimeoutIsTimeout | jaundice_rate/process_articles.py:157-161 | running out of the tokenizer's budget gives TIMEOUT although the fetch succeeded |
| ProcessArticles.SuccessIsOk | jaundice_rate/process_articles.py:163-174 | when every stage succeeds, the one record appended is OK, with the rate of the kept words and their number |
| ProcessArticles.TaskRecord | jaundice_rate/process_articles.py:135-174 | a task's record carries its URL and keeps the record invariant; a task fails exactly when its body raises a failure of an unrecognised kind, and with that failure |
| ProcessArticles.ProcessArticleAppendsTaskRecord | jaundice_rate/process_articles.py:167-174 | what a task appends does not depend on what the shared list already holds |
| ProcessArticles.TaskStepAppends | jaundice_rate/process_articles.py:199-207 | every task of the batch only appends its own record to the shared list |
| ProcessArticles.ProcessArticlesFrom | jaundice_rate/process_articles.py:177-209 | the batch equals collecting the tasks' outcomes independently. It completes exactly when no task lets a failure escape; it then holds one record per input URL, duplicates included, in position, each carrying its URL and keeping the record invariant; an escaping failure is an unrecognised one |
| ProcessArticles.RecognisedFailuresGiveOneRecordPerUrl | jaundice_rate/process_articles.py:177-209 | when no task's body raises a failure of an unrecognised kind, the batch completes with exactly one record per input URL |
| ProcessArticles.CollectedTasks | jaundice_rate/process_articles.py:194-209 | the collected batch carries the input URLs in order, every record keeps the invariant, and a batch failure is an unrecognised one |
| ProcessArticles.CollectScheduled | jaundice_rate/process_articles.py:197-207 | gathering the tasks in any completion order fails exactly when gathering them in place does; otherwise it gives the same values in that order |
| ProcessArticles.CompletionOrderIrrelevant | jaundice_rate/process_articles.py:197-209 | whatever order the concurrent tasks finish and append in, the batch fails exactly when the in-order batch fails; otherwise its records are a permutation of the in-order records, and its URLs are the input URLs as a multiset |
| ProcessArticles.LentaHost | tests/test_process_article.py:10 | the host of the unsupported-site test URL is lenta.ru |
| ProcessArticles.InosmiHost | tests/test_process_article.py:24-38 | the hosts of the fetch-error and fetch-timeout test URLs are inosmi.ru |
| ProcessArticles.SingleUrlBatch | jaundice_rate/process_articles.py:194-209 | a batch of one URL is that URL's task record alone |
| ProcessArticles.UnsupportedSiteExample | tests/test_process_article.py:8-19 | the lenta.ru URL yields exactly one PARSING_ERROR record with no rate and no word count |
| ProcessArticles.FetchFailureExample | tests/test_process_article.py:22-48 | an inosmi.ru test URL whose fetch answers with an error status yields exactly one FETCH_ERROR record; one whose fetch times out yields exactly one TIMEOUT record |
| ProcessArticles.IsolationExample | jaundice_rate/process_articles.py:153-174 | failures stay with their URL: a fetch timeout, an unsupported site and a success in one batch give TIMEOUT, PARSING_ERROR and OK, in that order |
| Batches.RunCollects | jaundice_rate/process_articles.py:194-209 | tasks that only append their own record, run against a shared list, leave that list followed by their records in task order, or the first task failure |
| Batches.RunFromEmpty | jaundice_rate/process_articles.py:194-209 | a run from the empty list is the collection of the tasks' outcomes |
| TextTools.RemoveDecorative | jaundice_rate/text_tools.py:8 | no «, » or … remains; no character is added and the length does not grow; a token without them is unchanged |
| TextTools.RemoveDecorativeConcat | jaundice_rate/text_tools.py:8 | deleting the decorative characters works piecewise over a concatenation; with the single-character cases of RemoveDecorative's contract, every other character is kept, in order |
| TextTools.StripLeft | jaundice_rate/text_tools.py:9 | the result is a suffix of the token; what was cut is all punctuation; the result does not start with punctuation |
| TextTools.StripRight | jaundice_rate/text_tools.py:9 | the result is a prefix of the token; what was cut is all punctuation; the result does not end with punctuation |
| TextTools.Strip | jaundice_rate/text_tools.py:9 | neither end of the result is punctuation, and the result is no longer than the token |
| TextTools.StripMeetsIsStripOf | jaundice_rate/text_tools.py:9 | the result is the token with an all-punctuation prefix and an all-punctuation suffix cut away, and its ends are not punctuation |
| TextTools.IsStripOfUnique | jaundice_rate/text_tools.py:9 | that description determines the result: any string meeting it equals `strip`'s result |
| TextTools.StripUnpunctuated | jaundice_rate/text_tools.py:9 | stripping a token whose ends are not punctuation changes nothing |
| TextTools.StripUnwraps | jaundice_rate/text_tools.py:9 | stripping removes exactly the punctuation put around a core whose ends are not punctuation |
| TextTools.CleanWord | jaundice_rate/text_tools.py:7-10 | a cleaned token holds no decorative character, neither of its ends is punctuation, and it is no longer than the token |
| TextTools.CleanWordIdempotent | jaundice_rate/text_tools.py:7-10 | cleaning a cleaned token changes nothing |
| TextTools.CleanWordUnwraps | jaundice_rate/text_tools.py:7-10 | cleaning removes exactly a wrapping of punctuation and decorative characters around a core without decorative characters whose ends are not punctuation |
| TextTools.CleanWordExample | tests/test_text_tools.py:10 | "«Удивительно," cleans to "Удивительно" |
| TextTools.Split | jaundice_rate/text_tools.py:17 | every token is non-empty and holds no whitespace character |
| TextTools.SplitToken | jaundice_rate/text_tools.py:17 | a token followed by whitespace, or by nothing, is split off whole |
| TextTools.SplitJoin | jaundice_rate/text_tools.py:17 | splitting non-empty whitespace-free tokens joined by single spaces gives the tokens back |
| TextTools.SplitKeepsAllButSpaces | jaundice_rate/text_tools.py:17 | the tokens, concatenated, are the text with its whitespace deleted: splitting loses nothing but whitespace |
| TextTools.Kept | jaundice_rate/text_tools.py:20-21 | every lemma kept passes the length filter; when all lemmas pass, all are kept |
| TextTools.KeptMembership | jaundice_rate/text_tools.py:20-21 | a lemma is kept exactly when it occurs and passes the filter (longer than two characters, or "не") |
| TextTools.KeptIsSubsequence | jaundice_rate/text_tools.py:20-21 | the kept lemmas keep their original order |
| TextTools.KeptConcat | jaundice_rate/text_tools.py:20-21 | the filter works piecewise: filtering a concatenation gives the filtered parts, concatenated |
| TextTools.KeptCounts | jaundice_rate/text_tools.py:20-21 | every occurrence of a passing lemma is kept and every occurrence of a failing one dropped, so the word count is the number of passing lemmas |
| TextTools.SplitByWords | jaundice_rate/text_tools.py:13-23 | the call times out exactly when the budget runs out while a raw token other than the last is processed (the cancellation arrives at the `sleep(0)` after the next token), and then returns no words; otherwise every word passes the length filter and there are no more words than raw tokens |
| TextTools.LastTokenNeverTimesOut | jaundice_rate/text_tools.py:16-22 | a budget running out during the last raw token is not reported, and a text of at most one raw token never times out |
| TextTools.SplitByWordsContents | jaundice_rate/text_tools.py:13-23 | an uncancelled call returns an order-preserving subsequence of the tokens' lemmas, holding a lemma exactly when some token normalises to it and it passes the filter, and then exactly as many times as the tokens produce it |
| TextTools.CountCharged | jaundice_rate/text_tools.py:31 | the count of charged occurrences is at most the number of words; it is 0 exactly when no word is charged, and the number of words exactly when every word is |
| TextTools.CountChargedConcat | jaundice_rate/text_tools.py:31 | the count of a concatenation is the sum of the parts' counts; with the one-word case of CountCharged's contract, each charged occurrence counts exactly once |
| TextTools.ChargedShare | jaundice_rate/text_tools.py:32 | the exact percentage lies in [0, 100]; it is 0 exactly when no word is charged, and 100 exactly when every word is |
| TextTools.RoundHalfEven | jaundice_rate/text_tools.py:34 | the result is within one half of its argument, and is even on a tie |
| TextTools.RoundHalfEvenIsNearest | jaundice_rate/text_tools.py:34 | no integer is nearer to the argument than the rounded result |
| TextTools.Round2 | jaundice_rate/text_tools.py:34 | the result is a whole number of hundredths, within half a hundredth of its argument, and stays in [0, 100] when the argument does |
| TextTools.CalculateJaundiceRate | jaundice_rate/text_tools.py:26-34 | the rate lies in [0, 100]; it is 0 for an empty article or when no word is charged, and 100 when every word is; otherwise it is within half a hundredth of the exact percentage |
| TextTools.CountChargedUsesSet | jaundice_rate/text_tools.py:31 | only which words are charged matters for the count, not their order or repetition in the list |
| TextTools.RateUsesChargedSet | jaundice_rate/text_tools.py:31 | reordering the charged-word list, or repeating entries in it, does not change the rate |
| TextTools.OneInThreeExample | tests/test_text_tools.py:15 | one charged word among three gives 33.33 |

## Left out

- Concurrency itself is not modelled. The tasks of `process_articles_from` run concurrently and interleave at their `await` points. The model has each task's own outcome, and the two batch schedules built from it: the start order, and any completion order given by a schedule (`CompletedInOrder`). When the task group fails, the tasks it cancels are not modelled: the batch is just the failure.
- The network and the file system are not modelled. `fetch`, `extract_file_content_from` and `get_charged_words_from` are I/O. What a fetch answers is part of `Observation`, and the charged words are a parameter.
- The fetch timeout is not modelled as a time. `fetch_timeout` only decides whether a fetch ends in `TimeoutError`, and that answer is part of `Observation`.
- pymorphy2 is not modelled. The normaliser is the parameter `Env.normalize`, a total function that never raises. An exception from `morph.parse(...)` would escape the handler and fail the batch; the model does not produce one.
- The inosmi.ru sanitizer and the HTML tools (BeautifulSoup) are not modelled. A sanitizer's result, or its failure, is `Env.sanitize`.
- TextTools.SplitByWords: does not model wall-clock time or asyncio's event loop. The three-second budget is the abstract `deadline`: the index of the raw token during which the budget runs out. `TimesOut` fixes the scheduling outcome. `sleep(0)` requeues the task ahead of the expired deadline's timer, so one more token is processed, and the cancellation is delivered at that token's `sleep(0)`. A budget running out while the task is suspended, or while another task runs, counts as running out during the token before or the token after. Which one depends on whether the event loop has already collected the expired timers in that iteration. `deadline` ranges over both.
- TextTools.CalculateJaundiceRate: works on exact rationals, not binary floating point. `len(found) / len(words) * 100` can differ from the exact percentage in its last bit, so on an exact tie at a half-hundredth the float result may round the other way.
- Urls.Netloc: models how `urlparse` detects the scheme and the `//` before the host. It does not model four things `urlsplit` also does:
  - strip leading whitespace and control characters;
  - delete tab, newline and carriage-return characters inside the URL;
  - raise `ValueError` on a malformed bracketed IPv6 host;
  - raise `ValueError` when a non-ASCII netloc's NFKC form contains '/', '?', '#', '@' or ':'.
- Urls.Netloc: for both `ValueError`s the model returns a netloc instead. So it records `PARSING_ERROR` (or whatever the lookup gives), where the code lets the `ValueError` escape `get_adapter_for` (which catches only `KeyError`) and the handler, failing the batch.
- `timeit` and logging are not modelled, since they do not affect any result.
- `main.py`, `server.py` and `settings.py` (command-line and HTTP front ends, configuration) are not part of this model.
- The two not-found exceptions are treated as one kind, by choice. The inosmi.ru sanitizer raises `ArticleNotFound` (jaundice_rate/adapters/inosmi_ru.py:4, 12), while the handler catches `adapters.ArticleNotFoundError` (jaundice_rate/exceptions.py:28). jaundice_rate/adapters/exceptions.py, which defines both, is not part of this model. So the model does not decide whether the one is a subclass of the other. Both are modelled as `ArticleNotFoundError`, so a page without the article body is recorded as `PARSING_ERROR` (`ProcessArticles.ArticleNotFoundIsParsingError`). If the two classes are unrelated, such a page would escape the handler instead and fail the batch.

=== FILE: articles.dfy ===
/** The per-URL result record (jaundice_rate/process_articles.py:19-47). */
module Articles {
  import opened Outcomes

  /** `ProcessingStatus`: the closed set of terminal classifications. */
  datatype ProcessingStatus = Ok | FetchError | ParsingError | Timeout {

    /** The enum member's `.value`, the string stored in a record. */
    function Value(): string {
      match this
      case Ok => "OK"
      case FetchError => "FETCH_ERROR"
      case ParsingError => "PARSING_ERROR"
      case Timeout => "TIMEOUT"
    }
  }

  const AllStatuses: seq<ProcessingStatus> := [Ok, FetchError, ParsingError, Timeout]

  /** `ProcessingStatus(v)`: the member whose value is `v`, if there is one. */
  function StatusFromValue(v: string): (r: Option<ProcessingStatus>)
    ensures r.Some? ==> r.value.Value() == v
    ensures r.None? ==> forall k :: 0 <= k < |AllStatuses| ==> AllStatuses[k].Value() != v
  {
    if v == "OK" then Some(Ok)
    else if v == "FETCH_ERROR" then Some(FetchError)
    else if v == "PARSING_ERROR" then Some(ParsingError)
    else if v == "TIMEOUT" then Some(Timeout)
    else None
  }

  /** There are exactly four statuses, with four distinct values, and a
      status is recovered from its value. */
  lemma StatusesAreFour(s: ProcessingStatus)
    ensures s in AllStatuses
    ensures |AllStatuses| == 4
    ensures forall a, b :: 0 <= a < b < 4 ==> AllStatuses[a].Value() != AllStatuses[b].Value()
    ensures StatusFromValue(s.Value()) == Some(s)
  {
  }

  /** `Article`: the record appended for one URL. `rate` and `wordCount` are
      Python's `None` defaults unless the pipeline supplies them. */
  datatype Article = Article(url: string, status: ProcessingStatus, rate: Option<real>, wordCount: Option<nat>) {

    /** The record invariant the pipeline keeps: score and word count are
        present exactly when the status is OK. */
    predicate WellFormed() {
      (rate.Some? <==> status == Ok) && (wordCount.Some? <==> status == Ok)
    }
  }

  /** The JSON-like values `to_dict` produces. */
  datatype Value = Str(s: string) | Number(r: real) | Integer(i: int) | Null

  const DictKeys: set<string> := {"url", "status", "rate", "word_count"}

  /** `Article.to_dict`. */
  function ToDict(a: Article): (d: map<string, Value>)
    ensures d.Keys == DictKeys
  {
    map[
      "url" := Str(a.url),
      "status" := Str(a.status.Value()),
      "rate" := (match a.rate case Some(r) => Number(r) case None => Null),
      "word_count" := (match a.wordCount case Some(n) => Integer(n) case None => Null)
    ]
  }

  /** Reads a record back from a dictionary shaped as `to_dict` shapes it. */
  function FromDict(d: map<string, Value>): (r: Option<Article>)
    ensures r.Some? ==> d.Keys == DictKeys
  {
    if d.Keys != DictKeys then None
    else
      match (d["url"], d["status"], d["rate"], d["word_count"])
      case (Str(url), Str(v), rate, count) =>
        var status := StatusFromValue(v);
        if status.None? then None
        else if !(rate.Number? || rate.Null?) then None
        else if !((count.Integer? && count.i >= 0) || count.Null?) then None
        else
          Some(Article(url, status.value,
                       if rate.Number? then Some(rate.r) else None,
                       if count.Integer? then Some(count.i as nat) else None))
      case _ => None
  }

  /** `to_dict` loses nothing: the record is read back from its dictionary. */
  lemma FromDictToDict(a: Article)
    ensures FromDict(ToDict(a)) == Some(a)
  {
    var d := ToDict(a);
    assert d["status"] == Str(a.status.Value());
    StatusesAreFour(a.status);
  }

  /** Every dictionary that reads back as a record is that record's `to_dict`. */
  lemma ToDictFromDict(d: map<string, Value>)
    requires FromDict(d).Some?
    ensures ToDict(FromDict(d).value) == d
  {
    var a := FromDict(d).value;
    var e := ToDict(a);
    assert e.Keys == d.Keys;
    assert forall k :: k in d ==> e[k] == d[k];
  }
}

=== FILE: batches.dfy ===
/** Running the tasks of a batch one after another against one shared list of
    records, each task appending to it or raising: the schedule in which the
    tasks of `process_articles_from` complete in the order they were started. */
module Batches {
  import opened Outcomes

  /** Tasks `i, ..., n - 1` in turn, `step(k, acc)` being task `k` run against
      the shared list `acc`; the first failure ends the run. */
  function Run<T>(step: (nat, seq<T>) -> Outcome<seq<T>>, n: nat, i: nat, acc: seq<T>): Outcome<seq<T>>
    requires i <= n
    decreases n - i
  {
    if i == n then Done(acc)
    else
      match step(i, acc)
      case Raised(f) => Raised(f)
      case Done(s) => Run(step, n, i + 1, s)
  }

  /** `acc` followed by the collected values, or the collected failure. */
  function Extend<T>(acc: seq<T>, o: Outcome<seq<T>>): (r: Outcome<seq<T>>)
    ensures r.Done? <==> o.Done?
    ensures r.Done? ==> r.value == acc + o.value
    ensures r.Raised? ==> r.failure == o.failure
  {
    match o
    case Done(vs) => Done(acc + vs)
    case Raised(f) => Raised(f)
  }

  /** Task `k` appends the record `records[k]` holds to whatever list it is
      given, or raises the failure `records[k]` holds, and touches nothing
      else. */
  ghost predicate AppendsOwnRecord<T(!new)>(step: (nat, seq<T>) -> Outcome<seq<T>>, records: seq<Outcome<T>>) {
    forall k: nat, acc: seq<T> :: k < |records| ==>
      step(k, acc) == if records[k].Done? then Done(acc + [records[k].value]) else Raised(records[k].failure)
  }

  /** Run against a shared list, tasks that only append their own record
      produce the list of their records, in task order, after what the list
      already held; the run fails with the first task failure. The result is
      therefore the same as collecting the tasks' outcomes independently. */
  lemma {:induction false} RunCollects<T(!new)>(step: (nat, seq<T>) -> Outcome<seq<T>>, records: seq<Outcome<T>>, i: nat, acc: seq<T>)
    requires AppendsOwnRecord(step, records) && i <= |records|
    ensures Run(step, |records|, i, acc) == Extend(acc, Collect(records[i..]))
    decreases |records| - i
  {
    if i < |records| {
      var o := records[i];
      assert records[i..][0] == o && records[i..][1..] == records[i + 1..];
      var n := |records|;
      match o
      case Raised(f) =>
        assert step(i, acc) == Raised(f);
        assert Run(step, n, i, acc) == Raised(f);
        assert Collect(records[i..]) == Raised(f);
      case Done(v) =>
        assert step(i, acc) == Done(acc + [v]);
        assert Run(step, n, i, acc) == Run(step, n, i + 1, acc + [v]);
        RunCollects(step, records, i + 1, acc + [v]);
        match Collect(records[i + 1..])
        case Raised(f) =>
          assert Collect(records[i..]) == Raised(f);
        case Done(vs) =>
          assert Collect(records[i..]) == Done([v] + vs);
          assert (acc + [v]) + vs == acc + ([v] + vs);
    } else {
      assert records[i..] == [];
      assert acc + [] == acc;
    }
  }

  /** A whole batch, run from an empty list, is the collection of its tasks'
      outcomes. */
  lemma RunFromEmpty<T(!new)>(step: (nat, seq<T>) -> Outcome<seq<T>>, records: seq<Outcome<T>>)
    requires AppendsOwnRecord(step, records)
    ensures Run(step, |records|, 0, []) == Collect(records)
  {
    RunCollects(step, records, 0, []);
    assert records[0..] == records;
    var c := Collect(records);
    if c.Done? {
      assert [] + c.value == c.value;
    }
  }
}

=== FILE: exceptions.dfy ===
/** The per-URL failure handler (jaundice_rate/exceptions.py): turns the three
    recognised kinds of failure into a record and lets every other kind through. */
module Exceptions {
  import opened Outcomes
  import opened Articles

  /** The `except` clauses, in order: the status a failure kind is recorded
      with, or `None` when no clause catches it. */
  function Classify(f: Failure): (s: Option<ProcessingStatus>)
    ensures s.Some? <==> !f.Unrecognised?
    ensures s != Some(Ok)
  {
    match f
    case ClientResponseError => Some(FetchError)
    case TimeoutError => Some(Timeout)
    case ArticleNotFoundError => Some(ParsingError)
    case Unrecognised(_) => None
  }

  /** Each failing status is reached by exactly one failure kind. */
  lemma ClassifyIsOneToOne(f: Failure, g: Failure)
    ensures Classify(f).Some? && Classify(f) == Classify(g) ==> f == g
    ensures Classify(ClientResponseError) == Some(FetchError)
    ensures Classify(TimeoutError) == Some(Timeout)
    ensures Classify(ArticleNotFoundError) == Some(ParsingError)
  {
  }

  /** `handle_exceptions(articles_stats, url)` around a body that either
      completed (`raised` is `None`; its own append is already in `stats`) or
      raised `raised`. The result is the new `articles_stats`, or the failure
      the handler does not catch. */
  function HandleExceptions(stats: seq<Article>, url: string, raised: Option<Failure>): (r: Outcome<seq<Article>>)
    ensures raised.None? ==> r == Done(stats)
    ensures r.Raised? <==> raised.Some? && raised.value.Unrecognised?
    ensures r.Raised? ==> r.failure == raised.value
    ensures r.Done? && raised.Some? ==>
              && |r.value| == |stats| + 1
              && r.value[..|stats|] == stats
              && r.value[|stats|].url == url
              && r.value[|stats|].rate.None? && r.value[|stats|].wordCount.None?
              && r.value[|stats|].WellFormed()
              && Some(r.value[|stats|].status) == Classify(raised.value)
  {
    match raised
    case None => Done(stats)
    case Some(f) =>
      match Classify(f)
      case None => Raised(f)
      case Some(status) => Done(stats + [Article(url, status, None, None)])
  }

  /** The three recognised kinds, one by one. */
  lemma HandlerTable(stats: seq<Article>, url: string)
    ensures HandleExceptions(stats, url, Some(ClientResponseError)) == Done(stats + [Article(url, FetchError, None, None)])
    ensures HandleExceptions(stats, url, Some(TimeoutError)) == Done(stats + [Article(url, Timeout, None, None)])
    ensures HandleExceptions(stats, url, Some(ArticleNotFoundError)) == Done(stats + [Article(url, ParsingError, None, None)])
  {
  }
}

=== FILE: outcomes.dfy ===
/** Explicit result values for the pipeline's exception-driven control flow.

The Python pipeline signals every failure by raising; here each stage returns an
`Outcome`, and the kind of exception it would have raised is a `Failure`. */
module Outcomes {

  /** A value that may be absent; Python's `None`. */
  datatype Option<+T> = None | Some(value: T)

  /** The kinds of exception a stage of the pipeline can raise. The first three
      are the ones the per-URL handler recognises; every other kind (a
      connection error, say) is `Unrecognised` and carries its class name. */
  datatype Failure =
    | ClientResponseError         // aiohttp: an HTTP error status (400 or above), or a subclass of it
    | TimeoutError                // anyio: a time budget ran out
    | ArticleNotFoundError        // no adapter for the host, or no article body
    | Unrecognised(name: string)  // anything else

  /** The result of a stage: it either completes with a value or raises. */
  datatype Outcome<+T> = Done(value: T) | Raised(failure: Failure) {

    predicate IsFailure() {
      Raised?
    }

    function PropagateFailure<U>(): Outcome<U>
      requires Raised?
    {
      Raised(failure)
    }

    function Extract(): T
      requires Done?
    {
      value
    }
  }

  /** Gathers the outcomes of independent steps: all their values when every
      step completed, otherwise the failure of the first step that raised. */
  function Collect<T>(os: seq<Outcome<T>>): (r: Outcome<seq<T>>)
    ensures r.Done? <==> forall k :: 0 <= k < |os| ==> os[k].Done?
    ensures r.Done? ==> |r.value| == |os|
    ensures r.Done? ==> forall k :: 0 <= k < |os| ==> r.value[k] == os[k].value
    ensures r.Raised? ==> exists k :: 0 <= k < |os| && os[k] == Raised(r.failure)
  {
    if |os| == 0 then Done([])
    else
      match os[0]
      case Raised(f) => Raised(f)
      case Done(v) =>
        match Collect(os[1..])
        case Raised(f) => Raised(f)
        case Done(vs) => Done([v] + vs)
  }
}

=== FILE: process_articles.dfy ===
/** The per-URL pipeline and the batch (jaundice_rate/process_articles.py):
    adapter lookup, fetch, sanitize, tokenize and score for one URL, wrapped in
    the failure handler, and one such task per URL of a batch.

    Everything the pipeline gets from outside is a parameter: the sanitizers'
    behaviour and the morphological normaliser (`Env`), and, per task, what
    the network answered and when the tokenizer's time budget ran out
    (`Observation`). */
module ProcessArticles {
  import opened Outcomes
  import opened Seqs
  import opened TextTools
  import opened Articles
  import opened Exceptions
  import opened Urls
  import opened Batches

  // ---------------------------------------------------------------------------
  // The adapter registry and get_adapter_for
  // ---------------------------------------------------------------------------

  /** The sanitizers the registry can name. What a sanitizer does to a
      document is `Env.sanitize`. */
  datatype Adapter = InosmiRu

  /** `SANITIZERS`: host name to sanitizer. */
  const Sanitizers: map<string, Adapter> := map["inosmi.ru" := InosmiRu]

  /** `get_adapter_for`: the sanitizer registered for the URL's host, or the
      not-found failure. */
  function GetAdapterFor(url: string): (r: Outcome<Adapter>)
    ensures r.Done? <==> Netloc(url) in Sanitizers
    ensures r.Done? ==> r.value == Sanitizers[Netloc(url)]
    ensures r.Raised? ==> r.failure == ArticleNotFoundError
  {
    var host := Netloc(url);
    if host in Sanitizers then Done(Sanitizers[host]) else Raised(ArticleNotFoundError)
  }

  /** The registry holds one host: a URL has an adapter exactly when its host
      is "inosmi.ru". */
  lemma OnlyInosmiIsSupported(url: string)
    ensures GetAdapterFor(url).Done? <==> Netloc(url) == "inosmi.ru"
    ensures GetAdapterFor(url).Done? ==> GetAdapterFor(url).value == InosmiRu
  {
  }

  // ---------------------------------------------------------------------------
  // process_article
  // ---------------------------------------------------------------------------

  /** The inputs every task of a batch shares, read-only. */
  datatype Env = Env(
    sanitize: (Adapter, string) -> Outcome<string>,  // a sanitizer applied to a document
    normalize: string -> string,                     // morph.parse(word)[0].normal_form
    chargedWords: seq<string>)

  /** What the outside world does during one task: the outcome of `fetch`
      (its HTML, an HTTP error, the fetch timeout, or any other failure), and
      the raw token during which the tokenizer's time budget runs out, if it
      does (see `TimesOut`). */
  datatype Observation = Observation(response: Outcome<string>, tokenizeDeadline: Option<nat>)

  /** The body of the `with handle_exceptions(...)` block: the stages in the
      order the source runs them, the first failure ending the body; on
      success, the OK record the body appends. */
  function ArticleBody(env: Env, url: string, obs: Observation): (r: Outcome<Article>)
    ensures r.Done? ==> r.value.url == url && r.value.status == Ok && r.value.WellFormed()
    ensures r.Done? ==> 0.0 <= r.value.rate.value <= 100.0
  {
    var adapter :- GetAdapterFor(url);
    var html :- obs.response;
    var text :- env.sanitize(adapter, html);
    var words :- SplitByWords(env.normalize, text, obs.tokenizeDeadline);
    Done(Article(url, Ok, Some(CalculateJaundiceRate(words, env.chargedWords)), Some(|words|)))
  }

  /** `process_article`: the body inside the failure handler. Either exactly
      one record for `url` is appended to `stats`, and nothing already there
      changes, or an unrecognised failure escapes. A failure escapes exactly
      when the body raised one of an unrecognised kind, and it is the body's
      own; otherwise the record is the body's OK record, or the one the
      handler builds for the body's failure. */
  function ProcessArticle(env: Env, url: string, obs: Observation, stats: seq<Article>): (r: Outcome<seq<Article>>)
    ensures r.Done? ==> |r.value| == |stats| + 1 && r.value[..|stats|] == stats
    ensures r.Done? ==> r.value[|stats|].url == url && r.value[|stats|].WellFormed()
    ensures r.Raised? ==> r.failure.Unrecognised?
    ensures var b := ArticleBody(env, url, obs);
            && (r.Raised? <==> b.Raised? && b.failure.Unrecognised?)
            && (r.Raised? ==> r.failure == b.failure)
            && (b.Done? ==> r == Done(stats + [b.value]))
            && (b.Raised? && r.Done? ==>
                  && Some(r.value[|stats|].status) == Classify(b.failure)
                  && r.value[|stats|].rate.None? && r.value[|stats|].wordCount.None?)
  {
    match ArticleBody(env, url, obs)
    case Done(a) => HandleExceptions(stats + [a], url, None)
    case Raised(f) => HandleExceptions(stats, url, Some(f))
  }

  /** The adapter is looked up before anything is fetched: a URL whose host
      has no sanitizer gets a PARSING_ERROR record whatever the network does. */
  lemma UnsupportedHostIsParsingError(env: Env, url: string, obs: Observation, stats: seq<Article>)
    requires Netloc(url) !in Sanitizers
    ensures ProcessArticle(env, url, obs, stats) == Done(stats + [Article(url, ParsingError, None, None)])
  {
  }

  /** A failed fetch of a supported URL: an HTTP error status gives a
      FETCH_ERROR record, the fetch timeout a TIMEOUT record, and any other
      failure escapes the handler. */
  lemma FetchFailureIsClassified(env: Env, url: string, obs: Observation, stats: seq<Article>)
    requires Netloc(url) in Sanitizers && obs.response.Raised?
    ensures obs.response.failure == ClientResponseError ==>
              ProcessArticle(env, url, obs, stats) == Done(stats + [Article(url, FetchError, None, None)])
    ensures obs.response.failure == TimeoutError ==>
              ProcessArticle(env, url, obs, stats) == Done(stats + [Article(url, Timeout, None, None)])
    ensures obs.response.failure.Unrecognised? ==>
              ProcessArticle(env, url, obs, stats) == Raised(obs.response.failure)
  {
  }

  /** A sanitizer that finds no article body gives a PARSING_ERROR record. */
  lemma ArticleNotFoundIsParsingError(env: Env, url: string, obs: Observation, stats: seq<Article>)
    requires Netloc(url) in Sanitizers && obs.response.Done?
    requires env.sanitize(Sanitizers[Netloc(url)], obs.response.value) == Raised(ArticleNotFoundError)
    ensures ProcessArticle(env, url, obs, stats) == Done(stats + [Article(url, ParsingError, None, None)])
  {
  }

  /** Running out of the tokenizer's budget gives a TIMEOUT record, just as a
      fetch timeout does, although the fetch succeeded. */
  lemma TokenizeTimeoutIsTimeout(env: Env, url: string, obs: Observation, stats: seq<Article>)
    requires Netloc(url) in Sanitizers && obs.response.Done?
    requires env.sanitize(Sanitizers[Netloc(url)], obs.response.value).Done?
    requires var text := env.sanitize(Sanitizers[Netloc(url)], obs.response.value).value;
             TimesOut(obs.tokenizeDeadline, |Split(text)|)
    ensures ProcessArticle(env, url, obs, stats) == Done(stats + [Article(url, Timeout, None, None)])
  {
  }

  /** When every stage succeeds, the one record appended is OK, with the
      article's rate and its number of kept words. */
  lemma SuccessIsOk(env: Env, url: string, obs: Observation, stats: seq<Article>)
    requires Netloc(url) in Sanitizers && obs.response.Done?
    requires env.sanitize(Sanitizers[Netloc(url)], obs.response.value).Done?
    requires var text := env.sanitize(Sanitizers[Netloc(url)], obs.response.value).value;
             SplitByWords(env.normalize, text, obs.tokenizeDeadline).Done?
    ensures var text := env.sanitize(Sanitizers[Netloc(url)], obs.response.value).value;
            var words := SplitByWords(env.normalize, text, obs.tokenizeDeadline).value;
            ProcessArticle(env, url, obs, stats)
              == Done(stats + [Article(url, Ok, Some(CalculateJaundiceRate(words, env.chargedWords)), Some(|words|))])
  {
  }

  /** The record one task appends, or the failure it lets escape. */
  function TaskRecord(env: Env, url: string, obs: Observation): (r: Outcome<Article>)
    ensures r.Done? ==> r.value.url == url && r.value.WellFormed()
    ensures r.Raised? ==> r.failure.Unrecognised?
    ensures var b := ArticleBody(env, url, obs);
            && (r.Raised? <==> b.Raised? && b.failure.Unrecognised?)
            && (r.Raised? ==> r.failure == b.failure)
  {
    var s :- ProcessArticle(env, url, obs, []);
    Done(s[0])
  }

  /** A task's record does not depend on what other tasks appended before it:
      `process_article` only appends. */
  lemma ProcessArticleAppendsTaskRecord(env: Env, url: string, obs: Observation, stats: seq<Article>)
    ensures var t := TaskRecord(env, url, obs);
            ProcessArticle(env, url, obs, stats)
              == if t.Done? then Done(stats + [t.value]) else Raised(t.failure)
  {
    var t := TaskRecord(env, url, obs);
    if t.Done? {
      assert [] + [t.value] == [t.value];
    }
  }

  // ---------------------------------------------------------------------------
  // process_articles_from
  // ---------------------------------------------------------------------------

  /** The outcome of every task, by position: task `k` runs `urls[k]` and
      observes `world(k)`. */
  function TaskOutcomes(env: Env, urls: seq<string>, world: nat -> Observation): (ts: seq<Outcome<Article>>)
    ensures |ts| == |urls|
    ensures forall k :: 0 <= k < |urls| ==> ts[k] == TaskRecord(env, urls[k], world(k))
  {
    seq(|urls|, k requires 0 <= k < |urls| => TaskRecord(env, urls[k], world(k)))
  }

  /** Task `k` of the batch: `process_article` for `urls[k]`, run against the
      shared list `articles_stats`. */
  function TaskStep(env: Env, urls: seq<string>, world: nat -> Observation): (nat, seq<Article>) -> Outcome<seq<Article>> {
    (k: nat, stats: seq<Article>) => if k < |urls| then ProcessArticle(env, urls[k], world(k), stats) else Done(stats)
  }

  /** Every task of the batch only appends its own record. */
  lemma TaskStepAppends(env: Env, urls: seq<string>, world: nat -> Observation)
    ensures AppendsOwnRecord(TaskStep(env, urls, world), TaskOutcomes(env, urls, world))
  {
    forall k: nat, stats: seq<Article> | k < |urls|
      ensures TaskStep(env, urls, world)(k, stats)
                == var t := TaskOutcomes(env, urls, world)[k];
                   if t.Done? then Done(stats + [t.value]) else Raised(t.failure)
    {
      ProcessArticleAppendsTaskRecord(env, urls[k], world(k), stats);
    }
  }

  /** The URL of every record, in order. */
  function UrlsOf(records: seq<Article>): (us: seq<string>)
    ensures |us| == |records|
    ensures forall k :: 0 <= k < |records| ==> us[k] == records[k].url
  {
    seq(|records|, k requires 0 <= k < |records| => records[k].url)
  }

  /** `process_articles_from`, with the tasks completing in the order of
      `urls`, each appending to the one shared list. The result is what the
      tasks produce independently of one another: unless a task lets an
      unrecognised failure escape, there is exactly one record per input URL,
      duplicates included, at that URL's position, carrying it unchanged and
      keeping the record invariant. */
  function ProcessArticlesFrom(env: Env, urls: seq<string>, world: nat -> Observation): (r: Outcome<seq<Article>>)
    ensures r == Collect(TaskOutcomes(env, urls, world))
    ensures r.Done? <==> forall k :: 0 <= k < |urls| ==> TaskRecord(env, urls[k], world(k)).Done?
    ensures r.Done? ==> |r.value| == |urls|
    ensures r.Done? ==> forall k :: 0 <= k < |urls| ==> r.value[k] == TaskRecord(env, urls[k], world(k)).value
    ensures r.Done? ==> forall k :: 0 <= k < |urls| ==> r.value[k].url == urls[k] && r.value[k].WellFormed()
    ensures r.Done? ==> UrlsOf(r.value) == urls
    ensures r.Raised? ==> r.failure.Unrecognised?
  {
    TaskStepAppends(env, urls, world);
    RunFromEmpty(TaskStep(env, urls, world), TaskOutcomes(env, urls, world));
    CollectedTasks(env, urls, world);
    Run(TaskStep(env, urls, world), |urls|, 0, [])
  }

  /** When no task's body raises a failure of an unrecognised kind, the batch
      completes with exactly one record per input URL. */
  lemma RecognisedFailuresGiveOneRecordPerUrl(env: Env, urls: seq<string>, world: nat -> Observation)
    requires forall k :: 0 <= k < |urls| ==>
               var b := ArticleBody(env, urls[k], world(k)); !(b.Raised? && b.failure.Unrecognised?)
    ensures ProcessArticlesFrom(env, urls, world).Done?
    ensures |ProcessArticlesFrom(env, urls, world).value| == |urls|
  {
    forall k | 0 <= k < |urls|
      ensures TaskRecord(env, urls[k], world(k)).Done?
    {
      var b := ArticleBody(env, urls[k], world(k));
      assert !(b.Raised? && b.failure.Unrecognised?);
    }
  }

  /** What collecting the tasks' outcomes gives, URL by URL. */
  lemma CollectedTasks(env: Env, urls: seq<string>, world: nat -> Observation)
    ensures var r := Collect(TaskOutcomes(env, urls, world));
            && (r.Done? ==> forall k :: 0 <= k < |urls| ==> r.value[k].url == urls[k] && r.value[k].WellFormed())
            && (r.Done? ==> UrlsOf(r.value) == urls)
            && (r.Raised? ==> r.failure.Unrecognised?)
  {
    var ts := TaskOutcomes(env, urls, world);
    var r := Collect(ts);
    if r.Done? {
      forall k | 0 <= k < |urls|
        ensures r.value[k].url == urls[k] && r.value[k].WellFormed()
      {
        assert r.value[k] == ts[k].value;
      }
      assert UrlsOf(r.value) == urls;
    } else {
      var k :| 0 <= k < |ts| && ts[k] == Raised(r.failure);
    }
  }

  /** The batch when the tasks complete, and so append, in the order `order`:
      the task group runs all tasks concurrently and each appends when it
      finishes. */
  function CompletedInOrder(env: Env, urls: seq<string>, world: nat -> Observation, order: seq<nat>): Outcome<seq<Article>>
    requires IsSchedule(order, |urls|)
  {
    Collect(Select(TaskOutcomes(env, urls, world), order))
  }

  /** Collecting outcomes picked in a schedule's order fails exactly when
      collecting them in place does, and otherwise picks the collected values
      in that order. */
  lemma CollectScheduled<T>(os: seq<Outcome<T>>, order: seq<nat>)
    requires IsSchedule(order, |os|)
    ensures Collect(Select(os, order)).Done? <==> Collect(os).Done?
    ensures Collect(os).Done? ==> Collect(Select(os, order)).value == Select(Collect(os).value, order)
  {
    var picked := Select(os, order);
    ScheduleIndices(order, |os|);
    if Collect(os).Done? {
      assert forall k :: 0 <= k < |picked| ==> picked[k].Done?;
    }
    if Collect(picked).Done? {
      forall i | 0 <= i < |os|
        ensures os[i].Done?
      {
        assert i in order;
        var k :| 0 <= k < |order| && order[k] == i;
        assert picked[k] == os[i];
      }
    }
  }

  /** Completion order does not matter: whatever order the tasks finish in,
      the batch fails exactly when the in-order batch fails, and otherwise its
      records are a permutation of the in-order records, so its URLs are the
      input URLs as a multiset. */
  lemma CompletionOrderIrrelevant(env: Env, urls: seq<string>, world: nat -> Observation, order: seq<nat>)
    requires IsSchedule(order, |urls|)
    ensures var inOrder := ProcessArticlesFrom(env, urls, world);
            var concurrent := CompletedInOrder(env, urls, world, order);
            && (concurrent.Done? <==> inOrder.Done?)
            && (concurrent.Done? ==> multiset(concurrent.value) == multiset(inOrder.value))
            && (concurrent.Done? ==> multiset(UrlsOf(concurrent.value)) == multiset(urls))
  {
    var ts := TaskOutcomes(env, urls, world);
    var inOrder := ProcessArticlesFrom(env, urls, world);
    var concurrent := Collect(Select(ts, order));
    CollectScheduled(ts, order);
    if concurrent.Done? {
      assert concurrent.value == Select(inOrder.value, order);
      ScheduledIsPermutation(inOrder.value, order);
      assert UrlsOf(concurrent.value) == Select(urls, order);
      ScheduledIsPermutation(urls, order);
    }
  }

  // ---------------------------------------------------------------------------
  // The scenarios of the repository's tests
  // ---------------------------------------------------------------------------

  // The URLs of the tests, written as scheme, "://", host and path.
  const LentaUrl := "https" + "://" + "lenta.ru" + "/economic/20190629/245384784.html"
  const InosmiUrl := "https" + "://" + "inosmi.ru" + "/economic/20190625/245384784.html"
  const InosmiMissingUrl := "https" + "://" + "inosmi.ru" + "/economic/520190625/245384784.html"

  lemma LentaHost()
    ensures Netloc(LentaUrl) == "lenta.ru"
  {
    NetlocOfUrl("https", "lenta.ru", "/economic/20190629/245384784.html");
  }

  lemma InosmiHost()
    ensures Netloc(InosmiUrl) == "inosmi.ru"
    ensures Netloc(InosmiMissingUrl) == "inosmi.ru"
  {
    NetlocOfUrl("https", "inosmi.ru", "/economic/20190625/245384784.html");
    NetlocOfUrl("https", "inosmi.ru", "/economic/520190625/245384784.html");
  }

  /** A batch of one URL holds that URL's task record. */
  lemma SingleUrlBatch(env: Env, url: string, world: nat -> Observation)
    ensures var t := TaskRecord(env, url, world(0));
            ProcessArticlesFrom(env, [url], world) == if t.Done? then Done([t.value]) else Raised(t.failure)
  {
    var r := ProcessArticlesFrom(env, [url], world);
    ProcessArticleAppendsTaskRecord(env, url, world(0), []);
    if r.Done? {
      assert r.value == [r.value[0]];
    }
  }

  /** The unsupported-site test: the lenta.ru URL yields one PARSING_ERROR
      record, whatever the network and the tokenizer would do. (The URL is a
      parameter so that the verifier does not evaluate the pipeline on the
      literal.) */
  lemma UnsupportedSiteExample(env: Env, world: nat -> Observation, url: string)
    requires url == LentaUrl
    ensures ProcessArticlesFrom(env, [url], world) == Done([Article(url, ParsingError, None, None)])
  {
    LentaHost();
    UnsupportedHostIsParsingError(env, url, world(0), []);
    SingleUrlBatch(env, url, world);
  }

  /** The fetch-error and fetch-timeout tests: an inosmi.ru URL whose fetch
      answers with an error status, or times out, yields one FETCH_ERROR, or
      one TIMEOUT, record. */
  lemma FetchFailureExample(env: Env, world: nat -> Observation, url: string)
    requires url == InosmiUrl || url == InosmiMissingUrl
    requires world(0).response == Raised(ClientResponseError) || world(0).response == Raised(TimeoutError)
    ensures var status := if world(0).response == Raised(TimeoutError) then Timeout else FetchError;
            ProcessArticlesFrom(env, [url], world) == Done([Article(url, status, None, None)])
  {
    InosmiHost();
    FetchFailureIsClassified(env, url, world(0), []);
    SingleUrlBatch(env, url, world);
  }

  /** Failures stay with their URL: of three URLs, one timing out on fetch,
      one on an unsupported site and one that succeeds, the batch holds one
      TIMEOUT, one PARSING_ERROR and one OK record. The hosts are those of the
      tests' URLs (`LentaHost`, `InosmiHost`). */
  lemma IsolationExample(env: Env, world: nat -> Observation, inosmi: string, lenta: string)
    requires Netloc(inosmi) == "inosmi.ru" && Netloc(lenta) == "lenta.ru"
    requires world(0).response == Raised(TimeoutError)
    requires world(2).response.Done? && world(2).tokenizeDeadline.None?
    requires env.sanitize(InosmiRu, world(2).response.value).Done?
    ensures var r := ProcessArticlesFrom(env, [inosmi, lenta, inosmi], world);
            r.Done? && [r.value[0].status, r.value[1].status, r.value[2].status] == [Timeout, ParsingError, Ok]
  {
    var urls := [inosmi, lenta, inosmi];
    FetchFailureIsClassified(env, inosmi, world(0), []);
    ProcessArticleAppendsTaskRecord(env, inosmi, world(0), []);
    UnsupportedHostIsParsingError(env, lenta, world(1), []);
    ProcessArticleAppendsTaskRecord(env, lenta, world(1), []);
    SuccessIsOk(env, inosmi, world(2), []);
    ProcessArticleAppendsTaskRecord(env, inosmi, world(2), []);
    forall k | 0 <= k < 3
      ensures TaskRecord(env, urls[k], world(k)).Done?
    {
      assert k == 0 || k == 1 || k == 2;
    }
  }
}

=== FILE: seqs.dfy ===
/** Index sequences and reordering: the facts needed to say that running the
    per-URL tasks in some other completion order only permutes the records. */
module Seqs {

  /** The indices `0, 1, ..., n - 1` in increasing order. */
  function Range(n: nat): (r: seq<nat>)
    ensures |r| == n
    ensures forall k :: 0 <= k < n ==> r[k] == k
  {
    seq(n, k requires 0 <= k < n => k)
  }

  /** `order` lists every index below `n` exactly once: a completion order of
      `n` tasks. */
  predicate IsSchedule(order: seq<nat>, n: nat) {
    (forall k :: 0 <= k < |order| ==> order[k] < n) && multiset(order) == multiset(Range(n))
  }

  /** The elements of `s` picked in the order the indices of `order` give. */
  function Select<T>(s: seq<T>, order: seq<nat>): (r: seq<T>)
    requires forall k :: 0 <= k < |order| ==> order[k] < |s|
    ensures |r| == |order|
    ensures forall k :: 0 <= k < |order| ==> r[k] == s[order[k]]
  {
    seq(|order|, k requires 0 <= k < |order| => s[order[k]])
  }

  /** A schedule of `n` tasks names every index below `n`, and has `n` entries. */
  lemma ScheduleIndices(order: seq<nat>, n: nat)
    requires IsSchedule(order, n)
    ensures forall i :: 0 <= i < n ==> i in order
    ensures |order| == n
  {
    var r := Range(n);
    forall i | 0 <= i < n
      ensures i in order
    {
      assert r[i] == i;
      assert i in multiset(r);
      assert i in multiset(order);
    }
    assert |multiset(order)| == |multiset(r)|;
  }

  /** A sequence is what comes before position `j`, the element there, and
      what comes after. */
  lemma SplitAt<T>(b: seq<T>, j: nat)
    requires j < |b|
    ensures b == b[..j] + [b[j]] + b[j + 1..]
  {
  }

  /** Removing the element at position `j` removes one copy of it. */
  lemma RemoveAt<T>(b: seq<T>, j: nat)
    requires j < |b|
    ensures multiset(b[..j] + b[j + 1..]) == multiset(b) - multiset{b[j]}
  {
    SplitAt(b, j);
  }

  /** `f` applied along `order`. */
  function Apply<T>(f: nat -> T, order: seq<nat>): (r: seq<T>)
    ensures |r| == |order|
  {
    if |order| == 0 then [] else [f(order[0])] + Apply(f, order[1..])
  }

  lemma {:induction false} ApplyAt<T>(f: nat -> T, order: seq<nat>, k: nat)
    requires k < |order|
    ensures Apply(f, order)[k] == f(order[k])
    decreases |order|
  {
    if k > 0 {
      ApplyAt(f, order[1..], k - 1);
    }
  }

  lemma {:induction false} ApplyConcat<T>(f: nat -> T, p: seq<nat>, q: seq<nat>)
    ensures Apply(f, p + q) == Apply(f, p) + Apply(f, q)
    decreases |p|
  {
    if |p| == 0 {
      assert p + q == q;
    } else {
      assert (p + q)[0] == p[0];
      assert (p + q)[1..] == p[1..] + q;
      ApplyConcat(f, p[1..], q);
    }
  }

  /** Taking index `b[j]` out of `b` takes one copy of `f(b[j])` out of what
      `f` yields along `b`. */
  lemma ApplyRemoveAt<T>(f: nat -> T, b: seq<nat>, j: nat)
    requires j < |b|
    ensures multiset(Apply(f, b)) == multiset{f(b[j])} + multiset(Apply(f, b[..j] + b[j + 1..]))
  {
    var x, b1, b2 := b[j], b[..j], b[j + 1..];
    SplitAt(b, j);
    ApplyConcat(f, b1, [x]);
    ApplyConcat(f, b1 + [x], b2);
    ApplyConcat(f, b1, b2);
    assert [x][1..] == [];
    assert Apply(f, [x]) == [f(x)];
    var p, q := Apply(f, b1), Apply(f, b2);
    assert Apply(f, b) == p + [f(x)] + q;
    assert multiset(p + [f(x)] + q) == multiset{f(x)} + multiset(p + q);
  }

  /** Applying a function along two index sequences that are permutations of
      each other yields permutations of each other. */
  lemma {:induction false} ApplyPermutation<T>(f: nat -> T, a: seq<nat>, b: seq<nat>)
    requires multiset(a) == multiset(b)
    ensures multiset(Apply(f, a)) == multiset(Apply(f, b))
    decreases |a|
  {
    if |a| == 0 {
      assert |multiset(b)| == 0;
      assert b == [];
    } else {
      var x, tail := a[0], a[1..];
      assert a == [x] + tail;
      assert x in multiset(b);
      assert x in b;
      var j :| 0 <= j < |b| && b[j] == x;
      var rest := b[..j] + b[j + 1..];
      RemoveAt(b, j);
      assert multiset(tail) == multiset(rest);
      ApplyPermutation(f, tail, rest);
      ApplyRemoveAt(f, b, j);
      assert Apply(f, a) == [f(x)] + Apply(f, tail);
      assert multiset(Apply(f, a)) == multiset{f(x)} + multiset(Apply(f, tail));
    }
  }

  /** Along a schedule of `|s|` tasks, picking the elements of `s` permutes `s`. */
  lemma ScheduledIsPermutation<T>(s: seq<T>, order: seq<nat>)
    requires IsSchedule(order, |s|)
    ensures multiset(Select(s, order)) == multiset(s)
  {
    ScheduleIndices(order, |s|);
    if |s| > 0 {
      var r := Range(|s|);
      var f := (i: nat) => if i < |s| then s[i] else s[0];
      ApplyPermutation(f, order, r);
      forall k | 0 <= k < |order|
        ensures Select(s, order)[k] == Apply(f, order)[k]
      {
        ApplyAt(f, order, k);
      }
      forall k | 0 <= k < |s|
        ensures s[k] == Apply(f, r)[k]
      {
        ApplyAt(f, r, k);
      }
      assert Select(s, order) == Apply(f, order);
      assert s == Apply(f, r);
    }
  }
}

=== FILE: text_tools.dfy ===
/** Tokenising an article into lemmas and scoring it against the charged words
    (jaundice_rate/text_tools.py). The morphological analyser is a parameter
    `normalize`: the model knows nothing about the lemmas it returns. */
module TextTools {
  import opened Outcomes

  // ---------------------------------------------------------------------------
  // Character classes
  // ---------------------------------------------------------------------------

  /** The typographic quotes and the ellipsis that `_clean_word` deletes
      wherever they occur in a token. */
  predicate IsDecorative(c: char) {
    c == '«' || c == '»' || c == '…'
  }

  /** Python's `string.punctuation`: the 32 printable ASCII characters that are
      neither letters, digits nor space. */
  predicate IsPunctuation(c: char) {
    ('!' <= c <= '/') || (':' <= c <= '@') || ('[' <= c <= '`') || ('{' <= c <= '~')
  }

  /** The characters on which Python's argument-less `str.split()` breaks. */
  predicate IsSpace(c: char) {
    ('\t' <= c <= '\r') || ('\U{1C}' <= c <= '\U{1F}') || c == ' '
    || c == '\U{85}' || c == '\U{A0}' || c == '\U{1680}'
    || ('\U{2000}' <= c <= '\U{200A}') || c == '\U{2028}' || c == '\U{2029}'
    || c == '\U{202F}' || c == '\U{205F}' || c == '\U{3000}'
  }

  ghost predicate AllPunctuation(s: string) {
    forall k :: 0 <= k < |s| ==> IsPunctuation(s[k])
  }

  ghost predicate NoDecorative(s: string) {
    forall k :: 0 <= k < |s| ==> !IsDecorative(s[k])
  }

  ghost predicate NoSpace(s: string) {
    forall k :: 0 <= k < |s| ==> !IsSpace(s[k])
  }

  /** Neither end of `s` is a punctuation character. */
  ghost predicate UnpunctuatedEnds(s: string) {
    |s| == 0 || (!IsPunctuation(s[0]) && !IsPunctuation(s[|s| - 1]))
  }

  // ---------------------------------------------------------------------------
  // _clean_word
  // ---------------------------------------------------------------------------

  /** The three `replace` calls: every decorative character is deleted and
      everything else is kept in order. */
  function RemoveDecorative(w: string): (r: string)
    ensures NoDecorative(r)
    ensures |r| <= |w|
    ensures NoDecorative(w) ==> r == w
    ensures forall k :: 0 <= k < |r| ==> r[k] in w
    decreases |w|
  {
    if |w| == 0 then ""
    else (if IsDecorative(w[0]) then "" else [w[0]]) + RemoveDecorative(w[1..])
  }

  /** `lstrip(string.punctuation)`: drops the longest all-punctuation prefix. */
  function StripLeft(w: string): (r: string)
    ensures |r| <= |w|
    ensures r == w[|w| - |r|..]
    ensures AllPunctuation(w[..|w| - |r|])
    ensures |r| == 0 || !IsPunctuation(r[0])
    decreases |w|
  {
    if |w| > 0 && IsPunctuation(w[0]) then StripLeft(w[1..]) else w
  }

  /** `rstrip(string.punctuation)`: drops the longest all-punctuation suffix. */
  function StripRight(w: string): (r: string)
    ensures |r| <= |w|
    ensures r == w[..|r|]
    ensures AllPunctuation(w[|r|..])
    ensures |r| == 0 || !IsPunctuation(r[|r| - 1])
    decreases |w|
  {
    if |w| > 0 && IsPunctuation(w[|w| - 1]) then StripRight(w[..|w| - 1]) else w
  }

  /** `strip(string.punctuation)`. */
  function Strip(w: string): (r: string)
    ensures UnpunctuatedEnds(r)
    ensures |r| <= |w|
  {
    StripRight(StripLeft(w))
  }

  /** `r` is `w[i..j]`, and everything of `w` outside that window is punctuation. */
  ghost predicate StripAt(w: string, r: string, i: nat, j: nat) {
    i <= j <= |w| && w[i..j] == r && AllPunctuation(w[..i]) && AllPunctuation(w[j..])
  }

  /** What `strip` is meant to compute, stated without saying how: `r` is what
      remains of `w` once an all-punctuation prefix and an all-punctuation
      suffix are cut away, and neither end of what remains is punctuation. */
  ghost predicate IsStripOf(w: string, r: string) {
    UnpunctuatedEnds(r) && exists i: nat, j: nat :: StripAt(w, r, i, j)
  }

  lemma StripMeetsIsStripOf(w: string)
    ensures IsStripOf(w, Strip(w))
  {
    var l := StripLeft(w);
    var r := StripRight(l);
    var i := |w| - |l|;
    var j := i + |r|;
    assert w[i..j] == r;
    assert w[j..] == l[|r|..];
    assert StripAt(w, r, i, j);
  }

  /** A window with unpunctuated ends is empty exactly when `w` is all
      punctuation. */
  lemma StripAtEmpty(w: string, r: string, i: nat, j: nat)
    requires StripAt(w, r, i, j) && UnpunctuatedEnds(r)
    ensures |r| == 0 <==> AllPunctuation(w)
  {
    PunctuationOutside(w, i, j);
    if |r| > 0 {
      assert r[0] == w[i];
    }
  }

  lemma PunctuationOutside(w: string, i: nat, j: nat)
    requires i <= j <= |w| && AllPunctuation(w[..i]) && AllPunctuation(w[j..])
    ensures forall k :: 0 <= k < i ==> IsPunctuation(w[k])
    ensures forall k :: j <= k < |w| ==> IsPunctuation(w[k])
  {
    forall k | 0 <= k < i ensures IsPunctuation(w[k]) { assert w[..i][k] == w[k]; }
    forall k | j <= k < |w| ensures IsPunctuation(w[k]) { assert w[j..][k - j] == w[k]; }
  }

  /** A non-empty window with unpunctuated ends starts at the first
      non-punctuation character of `w` and ends after the last one. */
  lemma StripAtBounds(w: string, r: string, i: nat, j: nat, r': string, i': nat, j': nat)
    requires StripAt(w, r, i, j) && UnpunctuatedEnds(r) && |r| > 0
    requires StripAt(w, r', i', j') && UnpunctuatedEnds(r') && |r'| > 0
    ensures i == i' && j == j'
  {
    assert w[i] == r[0] && w[i'] == r'[0];
    assert w[j - 1] == r[|r| - 1] && w[j' - 1] == r'[|r'| - 1];
    PunctuationOutside(w, i, j);
    PunctuationOutside(w, i', j');
  }

  /** `strip` is the only function meeting `IsStripOf`: any candidate result
      equals `Strip(w)`. */
  lemma IsStripOfUnique(w: string, r: string)
    requires IsStripOf(w, r)
    ensures r == Strip(w)
  {
    var i: nat, j: nat :| StripAt(w, r, i, j);
    StripMeetsIsStripOf(w);
    var s := Strip(w);
    var i': nat, j': nat :| StripAt(w, s, i', j');
    StripAtEmpty(w, r, i, j);
    StripAtEmpty(w, s, i', j');
    if !AllPunctuation(w) {
      StripAtBounds(w, r, i, j, s, i', j');
    }
  }

  lemma NoDecorativeSlice(w: string, i: nat, j: nat)
    requires i <= j <= |w| && NoDecorative(w)
    ensures NoDecorative(w[i..j])
  {
    forall k | 0 <= k < j - i
      ensures !IsDecorative(w[i..j][k])
    {
      assert w[i..j][k] == w[i + k];
    }
  }

  /** `_clean_word`: deletes the decorative characters anywhere in the token,
      then strips ASCII punctuation from both ends. */
  function CleanWord(w: string): (r: string)
    ensures NoDecorative(r)
    ensures UnpunctuatedEnds(r)
    ensures |r| <= |w|
  {
    var d := RemoveDecorative(w);
    var l := StripLeft(d);
    NoDecorativeSlice(d, |d| - |l|, |d|);
    NoDecorativeSlice(l, 0, |StripRight(l)|);
    Strip(d)
  }

  /** Stripping a string whose ends are not punctuation changes nothing. */
  lemma StripUnpunctuated(w: string)
    requires UnpunctuatedEnds(w)
    ensures Strip(w) == w
  {
    if |w| > 0 {
      assert !IsPunctuation(w[0]);
      assert StripLeft(w) == w;
      assert !IsPunctuation(w[|w| - 1]);
    }
  }

  /** Cleaning a cleaned token changes nothing. */
  lemma CleanWordIdempotent(w: string)
    ensures CleanWord(CleanWord(w)) == CleanWord(w)
  {
    var c := CleanWord(w);
    assert RemoveDecorative(c) == c;
    StripUnpunctuated(c);
  }

  lemma {:induction false} RemoveDecorativeConcat(a: string, b: string)
    ensures RemoveDecorative(a + b) == RemoveDecorative(a) + RemoveDecorative(b)
    decreases |a|
  {
    if |a| > 0 {
      var head := if IsDecorative(a[0]) then "" else [a[0]];
      assert (a + b)[0] == a[0];
      assert (a + b)[1..] == a[1..] + b;
      assert RemoveDecorative(a + b) == head + RemoveDecorative(a[1..] + b);
      assert RemoveDecorative(a) == head + RemoveDecorative(a[1..]);
      RemoveDecorativeConcat(a[1..], b);
      assert head + (RemoveDecorative(a[1..]) + RemoveDecorative(b)) == (head + RemoveDecorative(a[1..])) + RemoveDecorative(b);
    } else {
      assert a + b == b;
    }
  }

  /** Every character is punctuation or one of the decorative characters. */
  ghost predicate AllWrapping(s: string) {
    forall k :: 0 <= k < |s| ==> IsPunctuation(s[k]) || IsDecorative(s[k])
  }

  /** Deleting the decorative characters of a wrapping leaves punctuation. */
  lemma UnwrappedIsPunctuation(s: string)
    requires AllWrapping(s)
    ensures AllPunctuation(RemoveDecorative(s))
  {
    var r := RemoveDecorative(s);
    forall k | 0 <= k < |r| ensures IsPunctuation(r[k]) {
      assert r[k] in s;
    }
  }

  /** Stripping removes exactly punctuation put around a core whose ends are
      not punctuation. */
  lemma StripUnwraps(p: string, core: string, q: string)
    requires AllPunctuation(p) && AllPunctuation(q) && UnpunctuatedEnds(core)
    ensures Strip(p + core + q) == core
  {
    var d := p + core + q;
    assert d[..|p|] == p && d[|p|..|p| + |core|] == core && d[|p| + |core|..] == q;
    assert StripAt(d, core, |p|, |p| + |core|);
    IsStripOfUnique(d, core);
  }

  /** `_clean_word` removes exactly a wrapping of punctuation and decorative
      characters around a core that has neither at its ends nor decorative
      characters inside. */
  lemma CleanWordUnwraps(pre: string, core: string, post: string)
    requires AllWrapping(pre) && AllWrapping(post)
    requires NoDecorative(core) && UnpunctuatedEnds(core)
    ensures CleanWord(pre + core + post) == core
  {
    RemoveDecorativeConcat(pre + core, post);
    RemoveDecorativeConcat(pre, core);
    UnwrappedIsPunctuation(pre);
    UnwrappedIsPunctuation(post);
    StripUnwraps(RemoveDecorative(pre), core, RemoveDecorative(post));
  }

  /** A token of the repository's tokenizer tests: the leading quote and the
      trailing comma of "«Удивительно," go. (The token is a parameter so that
      the verifier does not evaluate `CleanWord` on the literal.) */
  lemma CleanWordExample(token: string)
    requires token == "«" + "Удивительно" + ","
    ensures CleanWord(token) == "Удивительно"
  {
    CleanWordUnwraps("«", "Удивительно", ",");
  }

  // ---------------------------------------------------------------------------
  // str.split()
  // ---------------------------------------------------------------------------

  /** The length of the run of non-space characters that starts `s`. */
  function TokenEnd(s: string): (n: nat)
    ensures n <= |s|
    ensures forall k :: 0 <= k < n ==> !IsSpace(s[k])
    ensures n == |s| || IsSpace(s[n])
    decreases |s|
  {
    if |s| == 0 || IsSpace(s[0]) then 0 else 1 + TokenEnd(s[1..])
  }

  /** `text.split()`: the maximal runs of non-space characters, in order. */
  function Split(s: string): (tokens: seq<string>)
    ensures forall k :: 0 <= k < |tokens| ==> |tokens[k]| > 0 && NoSpace(tokens[k])
    decreases |s|
  {
    if |s| == 0 then []
    else if IsSpace(s[0]) then Split(s[1..])
    else
      var n := TokenEnd(s);
      [s[..n]] + Split(s[n..])
  }

  /** `" ".join(tokens)`. */
  function Join(tokens: seq<string>): string {
    if |tokens| == 0 then ""
    else if |tokens| == 1 then tokens[0]
    else tokens[0] + " " + Join(tokens[1..])
  }

  lemma TokenEndOfToken(t: string, rest: string)
    requires |t| > 0 && NoSpace(t)
    requires |rest| == 0 || IsSpace(rest[0])
    ensures TokenEnd(t + rest) == |t|
  {
    var s := t + rest;
    assert forall k :: 0 <= k < |t| ==> s[k] == t[k];
    assert |rest| > 0 ==> s[|t|] == rest[0];
  }

  /** A token followed by a space, or by nothing, is split off whole. */
  lemma SplitToken(t: string, rest: string)
    requires |t| > 0 && NoSpace(t)
    requires |rest| == 0 || IsSpace(rest[0])
    ensures Split(t + rest) == [t] + Split(rest)
  {
    var s := t + rest;
    TokenEndOfToken(t, rest);
    assert s[0] == t[0];
    assert s[..|t|] == t;
    assert s[|t|..] == rest;
  }

  /** Splitting tokens joined by single spaces gives the tokens back. */
  lemma {:induction false} SplitJoin(tokens: seq<string>)
    requires forall k :: 0 <= k < |tokens| ==> |tokens[k]| > 0 && NoSpace(tokens[k])
    ensures Split(Join(tokens)) == tokens
    decreases |tokens|
  {
    if |tokens| == 1 {
      var t := tokens[0];
      SplitToken(t, "");
      assert t + "" == t;
    } else if |tokens| > 1 {
      var t, rest := tokens[0], Join(tokens[1..]);
      assert Join(tokens) == t + (" " + rest);
      SplitToken(t, " " + rest);
      assert (" " + rest)[1..] == rest;
      assert Split(" " + rest) == Split(rest);
      SplitJoin(tokens[1..]);
      assert tokens == [t] + tokens[1..];
    }
  }

  /** The concatenation of a sequence of strings. */
  function Concat(tokens: seq<string>): string {
    if |tokens| == 0 then "" else tokens[0] + Concat(tokens[1..])
  }

  /** `s` with every space character deleted. */
  function RemoveSpaces(s: string): string {
    if |s| == 0 then "" else (if IsSpace(s[0]) then "" else [s[0]]) + RemoveSpaces(s[1..])
  }

  lemma {:induction false} RemoveSpacesPrefix(s: string, n: nat)
    requires n <= |s|
    requires forall k :: 0 <= k < n ==> !IsSpace(s[k])
    ensures RemoveSpaces(s) == s[..n] + RemoveSpaces(s[n..])
    decreases n
  {
    if n > 0 {
      var t := s[1..];
      RemoveSpacesPrefix(t, n - 1);
      assert !IsSpace(s[0]);
      assert RemoveSpaces(s) == [s[0]] + RemoveSpaces(t);
      assert t[..n - 1] == s[1..n];
      assert t[n - 1..] == s[n..];
      assert s[..n] == [s[0]] + s[1..n];
    }
  }

  /** Splitting loses exactly the space characters: the tokens, put back
      together, are the text with its spaces deleted. */
  lemma {:induction false} SplitKeepsAllButSpaces(s: string)
    ensures Concat(Split(s)) == RemoveSpaces(s)
    decreases |s|
  {
    if |s| > 0 {
      if IsSpace(s[0]) {
        SplitKeepsAllButSpaces(s[1..]);
      } else {
        var n := TokenEnd(s);
        SplitKeepsAllButSpaces(s[n..]);
        RemoveSpacesPrefix(s, n);
        var ts := [s[..n]] + Split(s[n..]);
        assert ts[0] == s[..n] && ts[1..] == Split(s[n..]);
      }
    }
  }

  // ---------------------------------------------------------------------------
  // split_by_words
  // ---------------------------------------------------------------------------

  /** The length filter: a lemma is kept when it is longer than two characters
      or is the negation particle "не". */
  predicate IsKept(w: string) {
    |w| > 2 || w == "не"
  }

  /** The lemma of every raw token: `morph.parse(_clean_word(token))[0].normal_form`. */
  function Normalized(normalize: string -> string, tokens: seq<string>): (r: seq<string>)
    ensures |r| == |tokens|
    ensures forall k :: 0 <= k < |tokens| ==> r[k] == normalize(CleanWord(tokens[k]))
  {
    seq(|tokens|, k requires 0 <= k < |tokens| => normalize(CleanWord(tokens[k])))
  }

  /** The lemmas that pass the length filter, in their original order. */
  function Kept(lemmas: seq<string>): (r: seq<string>)
    ensures forall k :: 0 <= k < |r| ==> IsKept(r[k])
    ensures |r| <= |lemmas|
    ensures (forall k :: 0 <= k < |lemmas| ==> IsKept(lemmas[k])) ==> r == lemmas
    decreases |lemmas|
  {
    if |lemmas| == 0 then []
    else (if IsKept(lemmas[0]) then [lemmas[0]] else []) + Kept(lemmas[1..])
  }

  /** The filter works piecewise: filtering a concatenation filters each part. */
  lemma {:induction false} KeptConcat(a: seq<string>, b: seq<string>)
    ensures Kept(a + b) == Kept(a) + Kept(b)
    decreases |a|
  {
    if |a| == 0 {
      assert a + b == b;
    } else {
      assert (a + b)[0] == a[0] && (a + b)[1..] == a[1..] + b;
      KeptConcat(a[1..], b);
    }
  }

  /** Every occurrence of a passing lemma survives the filter and every
      occurrence of a failing one is dropped, so the number of words is the
      number of passing lemmas. */
  lemma {:induction false} KeptCounts(lemmas: seq<string>, w: string)
    ensures multiset(Kept(lemmas))[w] == if IsKept(w) then multiset(lemmas)[w] else 0
    decreases |lemmas|
  {
    if |lemmas| > 0 {
      KeptCounts(lemmas[1..], w);
      KeptCountsStep(lemmas, w);
    }
  }

  /** One step of `KeptCounts`: the first lemma adds one occurrence of `w` to
      both sides exactly when it is `w` and passes the filter. */
  lemma KeptCountsStep(lemmas: seq<string>, w: string)
    requires |lemmas| > 0
    requires multiset(Kept(lemmas[1..]))[w] == if IsKept(w) then multiset(lemmas[1..])[w] else 0
    ensures multiset(Kept(lemmas))[w] == if IsKept(w) then multiset(lemmas)[w] else 0
  {
    var h, tail := lemmas[0], lemmas[1..];
    assert lemmas == [h] + tail;
    if IsKept(h) {
      assert Kept(lemmas) == [h] + Kept(tail);
    } else {
      assert Kept(lemmas) == Kept(tail);
    }
  }

  /** `a` is `b` with some elements left out, the rest in their order. */
  ghost predicate IsSubsequence<T>(a: seq<T>, b: seq<T>)
    decreases |b|
  {
    if |a| == 0 then true
    else if |b| == 0 then false
    else (a[0] == b[0] && IsSubsequence(a[1..], b[1..])) || IsSubsequence(a, b[1..])
  }

  /** A lemma survives the filter exactly when it is kept by it. */
  lemma {:induction false} KeptMembership(lemmas: seq<string>, w: string)
    ensures w in Kept(lemmas) <==> w in lemmas && IsKept(w)
    decreases |lemmas|
  {
    if |lemmas| > 0 {
      KeptMembership(lemmas[1..], w);
      assert lemmas == [lemmas[0]] + lemmas[1..];
    }
  }

  lemma {:induction false} KeptIsSubsequence(lemmas: seq<string>)
    ensures IsSubsequence(Kept(lemmas), lemmas)
    decreases |lemmas|
  {
    if |lemmas| > 0 {
      KeptIsSubsequence(lemmas[1..]);
      var r := Kept(lemmas);
      if IsKept(lemmas[0]) {
        assert r[0] == lemmas[0] && r[1..] == Kept(lemmas[1..]);
      } else {
        assert r == Kept(lemmas[1..]);
      }
    }
  }

  /** Whether the tokenizer's budget, running out while the raw token at
      index `deadline.value` is processed, cancels a loop over `n` raw tokens.
      Each `sleep(0)` is a bare yield that puts the task straight back on the
      ready queue, and the expired deadline's timer joins that queue only
      behind it. So the task processes one more token before the cancellation
      is requested, and the request is delivered at that token's `sleep(0)`.
      A budget running out during the last token therefore cancels nothing. */
  predicate TimesOut(deadline: Option<nat>, n: nat) {
    deadline.Some? && deadline.value + 1 < n
  }

  /** `split_by_words`. The time budget of the whole call is abstract:
      `deadline` is `Some(k)` when the budget runs out while the raw token at
      index `k` is being processed, and `None` when it never runs out during
      the call (see `TimesOut`). A cancelled call returns no words at all. */
  function SplitByWords(normalize: string -> string, text: string, deadline: Option<nat>): (r: Outcome<seq<string>>)
    ensures r.Raised? <==> deadline.Some? && deadline.value + 1 < |Split(text)|
    ensures r.Raised? ==> r.failure == TimeoutError
    ensures r.Done? ==> forall k :: 0 <= k < |r.value| ==> IsKept(r.value[k])
    ensures r.Done? ==> |r.value| <= |Split(text)|
  {
    var tokens := Split(text);
    if TimesOut(deadline, |tokens|) then Raised(TimeoutError)
    else Done(Kept(Normalized(normalize, tokens)))
  }

  /** The budget running out during the last raw token is not reported: the
      loop ends before the cancellation arrives. In particular a text of one
      raw token never times out. */
  lemma LastTokenNeverTimesOut(normalize: string -> string, text: string, deadline: Option<nat>)
    ensures |Split(text)| > 0 && deadline == Some(|Split(text)| - 1) ==> SplitByWords(normalize, text, deadline).Done?
    ensures |Split(text)| <= 1 ==> SplitByWords(normalize, text, deadline).Done?
  {
  }

  /** What an uncancelled `split_by_words` returns: an order-preserving
      subsequence of the lemmas of the raw tokens, holding a lemma exactly
      when some token normalises to it and it passes the length filter, and
      then as often as the tokens produce it. */
  lemma SplitByWordsContents(normalize: string -> string, text: string, deadline: Option<nat>)
    ensures var r := SplitByWords(normalize, text, deadline);
            r.Done? ==>
              && IsSubsequence(r.value, Normalized(normalize, Split(text)))
              && (forall w :: w in r.value <==> IsKept(w) && w in Normalized(normalize, Split(text)))
              && forall w :: multiset(r.value)[w] == if IsKept(w) then multiset(Normalized(normalize, Split(text)))[w] else 0
  {
    var lemmas := Normalized(normalize, Split(text));
    assert SplitByWords(normalize, text, deadline).Done? ==> SplitByWords(normalize, text, deadline).value == Kept(lemmas);
    KeptIsSubsequence(lemmas);
    forall w
      ensures w in Kept(lemmas) <==> IsKept(w) && w in lemmas
    {
      KeptMembership(lemmas, w);
    }
    forall w
      ensures multiset(Kept(lemmas))[w] == if IsKept(w) then multiset(lemmas)[w] else 0
    {
      KeptCounts(lemmas, w);
    }
  }

  // ---------------------------------------------------------------------------
  // calculate_jaundice_rate
  // ---------------------------------------------------------------------------

  /** How many article words, counted with repetition, occur among the charged
      words. */
  function CountCharged(words: seq<string>, charged: seq<string>): (n: nat)
    ensures n <= |words|
    ensures n == 0 <==> forall k :: 0 <= k < |words| ==> words[k] !in charged
    ensures n == |words| <==> forall k :: 0 <= k < |words| ==> words[k] in charged
    decreases |words|
  {
    if |words| == 0 then 0
    else (if words[0] in charged then 1 else 0) + CountCharged(words[1..], charged)
  }

  /** Counting works piecewise: the charged occurrences of a concatenation are
      those of its parts. With the one-word case, which the contract of
      `CountCharged` fixes, each matching occurrence counts exactly once. */
  lemma {:induction false} CountChargedConcat(a: seq<string>, b: seq<string>, charged: seq<string>)
    ensures CountCharged(a + b, charged) == CountCharged(a, charged) + CountCharged(b, charged)
    decreases |a|
  {
    if |a| == 0 {
      assert a + b == b;
    } else {
      assert (a + b)[0] == a[0] && (a + b)[1..] == a[1..] + b;
      CountChargedConcat(a[1..], b, charged);
    }
  }

  /** `c / n` for `0 <= c <= n` lies in [0, 1], reaching 0 exactly when `c`
      is 0 and 1 exactly when `c` is `n`. */
  lemma FractionBounds(c: real, n: real)
    requires 0.0 <= c <= n && n > 0.0
    ensures 0.0 <= c / n <= 1.0
    ensures c / n == 0.0 <==> c == 0.0
    ensures c / n == 1.0 <==> c == n
  {
    var q := c / n;
    assert q * n == c;
    assert q > 1.0 ==> (q - 1.0) * n > 0.0;
    assert q < 0.0 ==> (0.0 - q) * n > 0.0;
  }

  /** The exact percentage of charged words, before rounding. */
  function ChargedShare(words: seq<string>, charged: seq<string>): (p: real)
    requires |words| > 0
    ensures 0.0 <= p <= 100.0
    ensures p == 0.0 <==> forall k :: 0 <= k < |words| ==> words[k] !in charged
    ensures p == 100.0 <==> forall k :: 0 <= k < |words| ==> words[k] in charged
  {
    var c, n := CountCharged(words, charged), |words|;
    FractionBounds(c as real, n as real);
    100.0 * (c as real / n as real)
  }

  /** Python's `round(x)`: the nearest integer, ties going to the even one. */
  function RoundHalfEven(y: real): (k: int)
    ensures -0.5 <= y - k as real <= 0.5
    ensures (y - k as real == 0.5 || y - k as real == -0.5) ==> k % 2 == 0
  {
    var f := y.Floor;
    var frac := y - f as real;
    if frac < 0.5 then f
    else if frac > 0.5 then f + 1
    else if f % 2 == 0 then f else f + 1
  }

  /** No integer is nearer to `y` than `RoundHalfEven(y)`. */
  lemma RoundHalfEvenIsNearest(y: real, m: int)
    ensures var k := RoundHalfEven(y);
            (if y >= k as real then y - k as real else k as real - y)
            <= (if y >= m as real then y - m as real else m as real - y)
  {
    var k := RoundHalfEven(y);
    if m > k {
      assert m as real >= k as real + 1.0;
    } else if m < k {
      assert m as real <= k as real - 1.0;
    }
  }

  /** `k` hundredths, for `k` within half a unit of `100 * x`, lies within
      half a hundredth of `x`, and stays in [0, 100] when `x` does. */
  lemma HundredthsNear(x: real, k: int)
    requires -0.5 <= x * 100.0 - k as real <= 0.5
    ensures -0.005 <= k as real / 100.0 - x <= 0.005
    ensures (k as real / 100.0) * 100.0 == k as real
    ensures 0.0 <= x ==> 0 <= k
    ensures x <= 100.0 ==> k <= 10000
  {
  }

  /** `round(x, 2)` on the exact value: the nearest multiple of 0.01, ties to
      an even number of hundredths. */
  function Round2(x: real): (r: real)
    ensures -0.005 <= r - x <= 0.005
    ensures (r * 100.0).Floor as real == r * 100.0
    ensures 0.0 <= x <= 100.0 ==> 0.0 <= r <= 100.0
  {
    var k := RoundHalfEven(x * 100.0);
    HundredthsNear(x, k);
    assert (k as real).Floor == k;
    k as real / 100.0
  }

  /** `calculate_jaundice_rate`: the percentage of article words that are
      charged, rounded to two decimals; 0 for an empty article. */
  function CalculateJaundiceRate(words: seq<string>, charged: seq<string>): (rate: real)
    ensures 0.0 <= rate <= 100.0
    ensures |words| == 0 ==> rate == 0.0
    ensures |words| > 0 ==> -0.005 <= rate - ChargedShare(words, charged) <= 0.005
    ensures (forall k :: 0 <= k < |words| ==> words[k] !in charged) ==> rate == 0.0
    ensures |words| > 0 && (forall k :: 0 <= k < |words| ==> words[k] in charged) ==> rate == 100.0
  {
    if |words| == 0 then 0.0 else Round2(ChargedShare(words, charged))
  }

  /** The charged words are used only as a set: two lists with the same
      members count the same occurrences. */
  lemma {:induction false} CountChargedUsesSet(words: seq<string>, c1: seq<string>, c2: seq<string>)
    requires forall w :: w in c1 <==> w in c2
    ensures CountCharged(words, c1) == CountCharged(words, c2)
    decreases |words|
  {
    if |words| > 0 {
      CountChargedUsesSet(words[1..], c1, c2);
    }
  }

  /** Duplicates in, or reordering of, the charged-word list do not change
      the rate. */
  lemma RateUsesChargedSet(words: seq<string>, c1: seq<string>, c2: seq<string>)
    requires forall w :: w in c1 <==> w in c2
    ensures CalculateJaundiceRate(words, c1) == CalculateJaundiceRate(words, c2)
  {
    CountChargedUsesSet(words, c1, c2);
  }

  /** One charged word among three: 100/3 rounds to 33.33. */
  lemma OneInThreeExample()
    ensures CalculateJaundiceRate(["все", "аутсайдер", "побег"], ["аутсайдер", "банкротство"]) == 33.33
  {
    var words, charged := ["все", "аутсайдер", "побег"], ["аутсайдер", "банкротство"];
    assert words[0] !in charged && words[1] in charged && words[2] !in charged;
    assert words[1..][1..] == ["побег"];
    assert CountCharged(words, charged) == 1;
    assert ChargedShare(words, charged) == 100.0 / 3.0;
    assert RoundHalfEven(100.0 / 3.0 * 100.0) == 3333;
  }
}

=== FILE: urls.dfy ===
/** The host part of a URL, as `urllib.parse.urlparse(url).netloc` finds it
    (used by `get_adapter_for`, jaundice_rate/process_articles.py:92-93). */
module Urls {

  predicate IsAsciiLetter(c: char) {
    ('a' <= c <= 'z') || ('A' <= c <= 'Z')
  }

  /** The characters a URL scheme may consist of. */
  predicate IsSchemeChar(c: char) {
    IsAsciiLetter(c) || ('0' <= c <= '9') || c == '+' || c == '-' || c == '.'
  }

  /** The characters that end the network location. */
  predicate IsDelimiter(c: char) {
    c == '/' || c == '?' || c == '#'
  }

  /** The index of the first ':' in `s`, or `|s|` when there is none. */
  function ColonIndex(s: string): (i: nat)
    ensures i <= |s|
    ensures forall k :: 0 <= k < i ==> s[k] != ':'
    ensures i == |s| || s[i] == ':'
    decreases |s|
  {
    if |s| == 0 || s[0] == ':' then 0 else 1 + ColonIndex(s[1..])
  }

  /** The index of the first delimiter in `s`, or `|s|` when there is none. */
  function DelimiterIndex(s: string): (i: nat)
    ensures i <= |s|
    ensures forall k :: 0 <= k < i ==> !IsDelimiter(s[k])
    ensures i == |s| || IsDelimiter(s[i])
    decreases |s|
  {
    if |s| == 0 || IsDelimiter(s[0]) then 0 else 1 + DelimiterIndex(s[1..])
  }

  /** `s` is a well-formed scheme: an ASCII letter followed by scheme characters. */
  predicate IsScheme(s: string) {
    |s| > 0 && IsAsciiLetter(s[0]) && forall k :: 0 <= k < |s| ==> IsSchemeChar(s[k])
  }

  /** What follows the scheme and its colon; the whole URL when it has no
      well-formed scheme. */
  function AfterScheme(url: string): string {
    var i := ColonIndex(url);
    if 0 < i < |url| && IsScheme(url[..i]) then url[i + 1..] else url
  }

  /** `urlparse(url).netloc`: after the scheme, the text between a leading
      "//" and the next '/', '?' or '#'; empty when there is no "//". */
  function Netloc(url: string): (host: string)
    ensures forall k :: 0 <= k < |host| ==> !IsDelimiter(host[k])
  {
    var rest := AfterScheme(url);
    if |rest| >= 2 && rest[0] == '/' && rest[1] == '/' then
      var authority := rest[2..];
      authority[..DelimiterIndex(authority)]
    else ""
  }

  /** The first ':' is the one every earlier character differs from. */
  lemma ColonIndexIs(s: string, n: nat)
    requires n < |s| && s[n] == ':'
    requires forall k :: 0 <= k < n ==> s[k] != ':'
    ensures ColonIndex(s) == n
  {
  }

  /** The first delimiter is the one after a run of non-delimiters. */
  lemma DelimiterIndexIs(s: string, n: nat)
    requires n == |s| || (n < |s| && IsDelimiter(s[n]))
    requires forall k :: 0 <= k < n ==> !IsDelimiter(s[k])
    ensures DelimiterIndex(s) == n
  {
  }

  /** A well-formed scheme and its colon are what `AfterScheme` removes. */
  lemma AfterSchemeOf(scheme: string, rest: string)
    requires IsScheme(scheme)
    ensures AfterScheme(scheme + ":" + rest) == rest
  {
    var url := scheme + ":" + rest;
    var n := |scheme|;
    assert forall k :: 0 <= k < n ==> url[k] == scheme[k];
    assert url[n] == ':';
    ColonIndexIs(url, n);
    assert url[..n] == scheme;
    assert url[n + 1..] == rest;
  }

  /** A host free of delimiters is the whole of what precedes the tail. */
  lemma HostBeforeTail(host: string, tail: string)
    requires forall k :: 0 <= k < |host| ==> !IsDelimiter(host[k])
    requires |tail| == 0 || IsDelimiter(tail[0])
    ensures var authority := host + tail; authority[..DelimiterIndex(authority)] == host
  {
    var authority := host + tail;
    assert forall k :: 0 <= k < |host| ==> authority[k] == host[k];
    assert |tail| > 0 ==> authority[|host|] == tail[0];
    DelimiterIndexIs(authority, |host|);
    assert authority[..|host|] == host;
  }

  /** The host is recovered from a URL built as `scheme://host` followed by a
      path, query or fragment. */
  lemma NetlocOfUrl(scheme: string, host: string, tail: string)
    requires IsScheme(scheme)
    requires forall k :: 0 <= k < |host| ==> !IsDelimiter(host[k])
    requires |tail| == 0 || IsDelimiter(tail[0])
    ensures Netloc(scheme + "://" + host + tail) == host
  {
    var rest := "//" + (host + tail);
    assert scheme + "://" + host + tail == scheme + ":" + rest;
    AfterSchemeOf(scheme, rest);
    assert rest[2..] == host + tail;
    HostBeforeTail(host, tail);
  }
}
